=== FILE: README.md ===
# CloneSet workload controller of Flagger, modelled in Dafny

This project models the OpenKruise CloneSet controller of Flagger's canary package, together with the
factory that picks a workload controller by target kind. Flagger creates a *primary* copy of a target
CloneSet and scales the target down to zero for the duration of a rollout. It checks whether primary
and target are ready, detects drift in the target's pod template, and promotes a vetted target revision
onto the primary.

The Kubernetes and Kruise clients are replaced by an abstract API server, `Kruise.Store`. The store maps
names to CloneSet records in the canary's namespace. Two sets of names stand for objects whose reads
and whose writes fail with a transient error. Every controller operation is a pure function of a
store. It returns a `Flagger.Run`, which holds:

- the result, either a value or a structured `Flagger.Error`;
- the store afterwards;
- the ordered list of write calls issued.

The write calls are creating primary config copies, updating a CloneSet and creating a CloneSet.

Modules:

- `Results` (results.dfy): `Option` and `Result`.
- `Kruise` (kruise.dfy): the CloneSet record, `Store`, and `Get` / `Update` / `Create`.
- `Flagger` (flagger.dfy): the canary descriptor, the `-primary` naming convention, errors by kind, write calls and `Run`.
- `ScaleMarker` (scale_marker.dfy): the `flagger.app/scale-to-zero: "true"` node-selector marker.
  - It also holds adding the marker, removing it, and the normalisation drift detection hashes.
  - A node selector is `Option<map>`, so a Go nil map is kept apart from an empty one.
- `CloneSetReady` (cloneset_ready.dfy): the readiness classifier and the primary and canary probes.
- `CloneSetController` (cloneset_controller.dfy): the other operations:
  - selector resolution, scaling to and from zero, drift detection, metadata;
  - primary creation, initialisation, promotion and finalisation.
- `ControllerFactory` (factory.dfy): kind dispatch and the dependencies wired into each variant.

The config tracker and the package helpers the controller calls are function-valued fields of
`CloneSetController.Controller`, so every property holds whatever they compute. The helpers are
`makeAnnotations`, `makePrimaryLabels`, `includeLabelsByPrefix`, `hasSpecChanged` and `getPorts`.

Behaviour of the code worth knowing:

- Selector resolution returns the first candidate key present in the match labels. Two present keys
  are not an error (`SelectorLabelPriority`); the loop at pkg/canary/cloneset_controller.go:307-311
  returns on the first hit.
- The primary probe's "scaled to zero" halt compares the `Spec.Replicas` pointer with a freshly
  allocated pointer, so it never fires, although the message at pkg/canary/cloneset_ready.go:47-48
  announces a halt. `ZeroReplicaPrimaryNotHalted` shows that a ready primary declared at zero
  replicas passes.
- Primary creation accepts only the update strategy types `""` and `ReCreate`. The error message names
  RollingUpdate (pkg/canary/cloneset_controller.go:232), but the condition does not.
- Scaling down and then up writes back the *normalised* node selector, not always the original one.
  A marker key the target already had is lost, and a nil map is written back as an empty one
  (`ScaleRoundTrip`).
- The API server admits a created CloneSet at generation 1 with a status that has observed none,
  so a primary created by `Initialize` fails the primary probe in the same call. Unless the analysis
  is skipped, the target is scaled down on a later call (`FreshPrimaryDefersScaleDown`).
- Primary creation copies the target's node selector as it is. If the target already carries the marker,
  so does the new primary (`CreatedPrimaryInheritsMarker`). Only promotion strips it.
- The condition lookup of the CloneSet controller is a stub that returns nothing; it is marked
  `@TODO` at pkg/canary/cloneset_ready.go:109. The deadline rules
  are modelled in `CloneSetReady.Classify` with the condition as an input. The controller itself uses
  `IsCloneSetReady`, which feeds the stub, so every one of its verdicts is retryable.

## Model

| member | source | states |
|---|---|---|
| Flagger.PrimaryName | pkg/canary/cloneset_controller.go:223 | the primary name extends the target name with a suffix, so it is never the target's own name |
| ScaleMarker.AddMarker | pkg/canary/cloneset_controller.go:58-66 | the result is a non-nil map with every old entry except the marker key, and the marker key maps to "true" even if it held another value before |
| ScaleMarker.RemoveMarker | pkg/canary/cloneset_controller.go:83-85 | only the marker key is deleted, every other entry keeps its value, and a nil map stays nil |
| ScaleMarker.Normalise | pkg/canary/cloneset_controller.go:187-195 | the hashed selector is never nil, never holds the marker, and agrees with the input on every other key |
| ScaleMarker.AddMarkerIdempotent | pkg/canary/cloneset_controller.go:58-66 | adding the marker twice gives the same selector as adding it once |
| ScaleMarker.RemoveMarkerIdempotent | pkg/canary/cloneset_controller.go:83-85 | removing the marker twice gives the same selector as removing it once |
| ScaleMarker.NormaliseEquivalence | pkg/canary/cloneset_controller.go:187-195 | two selectors normalise equally if and only if they agree on every key but the marker, with nil and empty counting as equal |
| ScaleMarker.NormaliseIgnoresMarker | pkg/canary/cloneset_controller.go:187-195 | normalisation is blind to the marker being added or removed and to a nil map being made empty |
| ScaleMarker.RemoveAfterAdd | pkg/canary/cloneset_controller.go:58-85 | removing after adding yields the normalised selector, which equals the original exactly when the original was non-nil and marker-free |
| CloneSetReady.Classify | pkg/canary/cloneset_ready.go:75-107 | stale generation gives a retryable failure whatever the counts; ready exactly when caught up, no deadline reason and all three checks pass; after catching up, fatal exactly when the deadline reason is present, or a check fails while a stuck-unavailable condition has outlived the deadline |
| CloneSetReady.ChecksInOrder | pkg/canary/cloneset_ready.go:92-101 | after catching up, the failure names the first failing check (updated vs declared, then old replicas, then availability), each as an if-and-only-if, and the reason carries the counts the source reports: updated and declared, old replicas pending, available and updated |
| CloneSetReady.DeadlineExceededIsFatal | pkg/canary/cloneset_ready.go:90-91 | a ProgressDeadlineExceeded reason gives a non-retryable failure whatever the replica counts |
| CloneSetReady.GracePeriod | pkg/canary/cloneset_ready.go:83-87 | a stuck rollout whose availability condition turned False at T stays retryable up to T+D and is fatal after T+D |
| CloneSetReady.IsCloneSetReady | pkg/canary/cloneset_ready.go:75-112 | with the stub condition lookup every verdict is retryable, and readiness is exactly "generation caught up and rollout complete" |
| CloneSetReady.IsPrimaryReady | pkg/canary/cloneset_ready.go:33-51 | succeeds exactly when the primary is readable, caught up and fully rolled out; a read failure is reported as the API read error, a not-ready primary as the classifier's reason, both against the primary's name, and the retryable flag is dropped |
| CloneSetReady.ZeroReplicaPrimaryNotHalted | pkg/canary/cloneset_ready.go:46-49 | a ready primary declared at zero replicas passes the probe, because the halt check compares pointers |
| CloneSetReady.IsCanaryReady | pkg/canary/cloneset_ready.go:56-71 | a read failure is retryable and reported as the API read error; otherwise the error is absent exactly when the target is ready, is the classifier's reason against the target's name when present, and the retryable flag is the classifier's |
| CloneSetReady.CanaryProbeAlwaysRetryable | pkg/canary/cloneset_ready.go:56-71 | with the stub condition lookup the canary probe never reports a non-retryable failure |
| CloneSetController.SelectorLabel | pkg/canary/cloneset_controller.go:306-317 | none is found exactly when no candidate is present; otherwise the result is a present candidate with its match-label value, and no earlier candidate is present |
| CloneSetController.SelectorLabelUnique | pkg/canary/cloneset_controller.go:306-317 | when exactly one candidate key is present, that key and its value are returned |
| CloneSetController.SelectorLabelPriority | pkg/canary/cloneset_controller.go:307-311 | candidates appended after a resolved one never change the result |
| CloneSetController.GetSelectorLabel | pkg/canary/cloneset_controller.go:306-317 | fails, naming the CloneSet and the candidate list, exactly when no candidate key is in the selector's match labels; on success the result is the first present candidate in list order, with its value |
| CloneSetController.ScaleToZero | pkg/canary/cloneset_controller.go:51-73 | succeeds exactly when the target can be read and written; then only the target's node selector changes, to the marker-added one; on failure the store is unchanged and the error is the failed read or update, against the target's name; one update is issued when the read succeeds |
| CloneSetController.ScaleFromZero | pkg/canary/cloneset_controller.go:75-92 | succeeds exactly when the target can be read and written; then only the marker key leaves the target's node selector and every other field and object is unchanged; a failure is the failed read or update, against the target's name |
| CloneSetController.ScaleToZeroIdempotent | pkg/canary/cloneset_controller.go:51-73 | scaling to zero again after a success succeeds and leaves the same store |
| CloneSetController.ScaleRoundTrip | pkg/canary/cloneset_controller.go:51-92 | scaling down then up leaves the target's node selector normalised, and restores the whole store exactly when the original selector was non-nil and marker-free |
| CloneSetController.DriftTemplate | pkg/canary/cloneset_controller.go:187-195 | the hashed template has a non-nil, marker-free node selector agreeing with the target's elsewhere, and the target's labels, annotations, containers and volumes |
| CloneSetController.HasTargetChanged | pkg/canary/cloneset_controller.go:180-198 | a read failure is reported as the API read error against the target's name; otherwise the answer is the spec-hash comparison of the normalised template |
| CloneSetController.DriftTemplateIgnoresMarker | pkg/canary/cloneset_controller.go:187-195 | adding or removing the marker never changes the template that is hashed |
| CloneSetController.ScalingIsNotDrift | pkg/canary/cloneset_controller.go:180-198 | drift detection answers the same before and after scaling the target to or from zero |
| CloneSetController.HaveDependenciesChanged | pkg/canary/cloneset_controller.go:319-321 | answers exactly what the config tracker reports, failing exactly when it fails |
| CloneSetController.GetMetadata | pkg/canary/cloneset_controller.go:201-219 | succeeds exactly when the target is readable and a candidate label is present; returns the resolved label and value, and ports exactly when port discovery is on; an unreadable target is reported as an API read failure, a readable one only as a missing selector label |
| CloneSetController.CreatePrimary | pkg/canary/cloneset_controller.go:221-303 | an unreadable target, an unsupported strategy or a missing candidate label fails before any write, each reported by kind; only a NotFound read of the primary leads to writes, config copies before the create; an existing or unreadable primary gives success with no write; a store change only adds the primary, built as IsPrimaryOf says |
| CloneSetController.CreatePrimaryWhenAbsent | pkg/canary/cloneset_controller.go:245-298 | with the guards passing, the primary NotFound and every collaborator succeeding, the primary is created with name target+"-primary", object labels made from the target's labels that match the prefix list plus the primary label, selector {label: value+"-primary"}, the target's annotations, policy fields and overlaid pod spec |
| CloneSetController.CreatePrimaryCollaboratorFailures | pkg/canary/cloneset_controller.go:246-297 | when the primary is absent, a failing config lookup, config copy, annotation draw or create is reported by kind, after exactly the writes issued before it, with the store unchanged |
| CloneSetController.CreatedPrimaryInheritsMarker | pkg/canary/cloneset_controller.go:284-291 | when the config overlay keeps node selectors, the created primary's node selector is the target's, marker included |
| CloneSetController.Initialize | pkg/canary/cloneset_controller.go:96-116 | a creation failure is returned wrapped; outside the setup phases only the primary is ensured; in a setup phase a failing primary probe (unless analysis is skipped) is returned as the error with no further write, and a passing or skipped probe leads to scaling the target to zero, whose failure is returned wrapped; the target is updated only on that path |
| CloneSetController.InitializeCreatesOnce | pkg/canary/cloneset_controller.go:96-116 | once the primary exists, initialisation issues no create and no update of the primary |
| CloneSetController.FreshPrimaryDefersScaleDown | pkg/canary/cloneset_controller.go:96-108 | a primary created in the same call fails the probe on its unobserved generation, so the target is not scaled down unless the analysis is skipped |
| CloneSetController.Promote | pkg/canary/cloneset_controller.go:119-177 | no object is added or removed; on failure the store is unchanged; the write calls are none, the config copies alone, or the config copies followed by one primary update |
| CloneSetController.PromoteStepFailures | pkg/canary/cloneset_controller.go:123-137 | an unreadable target, a missing selector label or an unreadable primary is reported by kind with no write and the store unchanged |
| CloneSetController.PromoteCollaboratorFailures | pkg/canary/cloneset_controller.go:139-175 | once both objects are read and the label resolved, a failing config lookup, config copy, annotation draw or primary update is reported by kind, after exactly the writes issued before it |
| CloneSetController.PromoteWritesOnlyWhenReady | pkg/canary/cloneset_controller.go:139-176 | the primary update is issued if and only if both reads, label resolution, the tracker calls and the annotations all succeeded |
| CloneSetController.PromoteCopiesRevision | pkg/canary/cloneset_controller.go:148-168 | after a success only the primary changed: its metadata, status, replicas and selector are kept; policy fields come from the target; the pod spec is the overlaid target spec without the marker; the template labels and annotations are the primary ones |
| CloneSetController.Finalize | pkg/canary/cloneset_controller.go:324-329 | succeeds exactly when the target can be read and written, leaving it marker-free and otherwise unchanged; its store and write calls are exactly those of `ScaleFromZero`, and a failure is that operation's error wrapped as a scale-from-zero failure |
| ControllerFactory.Controller | pkg/canary/factory.go:55-98 | the four kinds map to their variants and any other string to Deployment; only CloneSet gets the Kruise client; DaemonSet gets no prefix list; Service gets neither labels nor tracker; wired values are the factory's |
| ControllerFactory.KindNameRoundTrip | pkg/canary/factory.go:86-96 | each variant is returned for its own kind name, and a non-default variant only for that name |
| ControllerFactory.UnknownKindIsDeployment | pkg/canary/factory.go:95-96 | an unknown kind yields the same controller as "Deployment" |
| ControllerFactory.VariantDeterminesWiring | pkg/canary/factory.go:56-84 | two kinds that select the same variant yield identically wired controllers |

## Left out

- Kubernetes and Kruise client calls, `context.TODO` and `DeepCopy` are replaced by the value semantics of `Kruise.Store`. Update conflicts and other transient API failures are reads or writes of names in the store's failure sets. Retrying them is the caller's business.
- The model holds one namespace. The updates in `ScaleToZero` and `ScaleFromZero` address the namespace read back from the object (pkg/canary/cloneset_controller.go:68 and :87), which is the canary's namespace.
- Logging and error message text are left out. Errors are values tagged by kind.
- At pkg/canary/cloneset_controller.go:125 the Promote read error is formatted with `%v`, so the cause cannot be unwrapped. The model keeps the cause like every other read error.
- The config tracker internals and the helpers `makeAnnotations`, `makePrimaryLabels`, `includeLabelsByPrefix`, `hasSpecChanged` and `getPorts` are not part of this model. They are uninterpreted function fields.
  - `makeAnnotations` draws a random identifier, so a function stands for one draw.
  - `SkipAnalysis` and `GetProgressDeadlineSeconds` are not part of this model either. They are fields of the canary descriptor.
- The owner reference keeps only the owning canary's name. Group, version and kind are metadata with no behaviour.
- `time.Now()` is the parameter `now`, and times are whole seconds. The nanosecond overflow of `time.Duration(deadline) * time.Second` for deadlines over about 292 years is not modelled.
- The API server's own effects on the store are not modelled:
  - the generation bump on a spec update (a create does set generation 1 and an empty status);
  - defaulting the created primary's nil replica count;
  - resource versions.
- The CloneSet selector is a plain map. A nil `Spec.Selector` pointer, which Kruise validation rejects, would panic in the source.
- `createPrimaryCloneSet` takes a label-prefix list parameter, but its only caller passes the controller's own list. The model uses that list.
- The Deployment, DaemonSet and Service controllers are not part of this model. Only their selection and wiring in the factory are.
- CloneSetController.ScaleRoundTrip: the store keeps a written object as sent, including an empty node selector. The API server drops an empty `nodeSelector` when it serialises the pod template (the field is `omitempty`), so in the cluster a nil selector comes back nil, and the "only if" half of the restoration property for a nil selector holds of the store, not of the cluster.
- Integer widths (int32 replica counts, int64 generations) are not modelled. The source compares them, and the one subtraction, `Status.Replicas - Status.UpdatedReplicas` at pkg/canary/cloneset_ready.go:97 (kept in `OldReplicasPending`), runs only when the first count exceeds the second. Both are non-negative, so the difference fits in int32.

=== FILE: cloneset_controller.dfy ===
/**
  The CloneSet workload controller: selector resolution, scale to and from zero,
  primary creation, initialisation, promotion, drift detection, metadata and
  finalisation, each as a function over the abstract store of `Kruise`.
 */
module CloneSetController {
  import opened Results
  import opened Kruise
  import opened Flagger
  import opened ScaleMarker
  import opened CloneSetReady

  /** Opaque handles to the config maps and secrets a pod template references. */
  datatype ConfigRefs = ConfigRefs(configMaps: set<string>, secrets: set<string>)

  /**
    The config tracker, as the results of its calls. `None` (or `false`) is a failure;
    `createPrimaryConfigs` writes primary copies of the configs outside this store.
   */
  datatype Tracker = Tracker(
    getTargetConfigs: Canary -> Option<ConfigRefs>,
    createPrimaryConfigs: (Canary, ConfigRefs, seq<string>) -> bool,
    applyPrimaryConfigs: (PodSpec, ConfigRefs) -> PodSpec,
    hasConfigChanged: Canary -> Option<bool>)

  /**
    Package helpers the controller calls: pod annotations for a new revision, primary
    labels, label filtering by prefix, the spec-hash comparison and port discovery.
   */
  datatype Helpers = Helpers(
    makeAnnotations: map<string, string> -> Option<map<string, string>>,
    makePrimaryLabels: (map<string, string>, string, string) -> map<string, string>,
    includeLabelsByPrefix: (map<string, string>, seq<string>) -> map<string, string>,
    hasSpecChanged: (Canary, PodTemplate) -> Option<bool>,
    getPorts: (Canary, seq<Container>) -> map<string, int>)

  /** A CloneSet controller: candidate selector labels in priority order, label prefixes to copy, collaborators. */
  datatype Controller = Controller(
    labels: seq<string>,
    includeLabelPrefix: seq<string>,
    tracker: Tracker,
    helpers: Helpers)

  // ---------------------------------------------------------------------------
  // Selector resolution

  /** The first candidate key present in `matchLabels`, with its value. */
  function SelectorLabel(candidates: seq<string>, matchLabels: map<string, string>): (r: Option<(string, string)>)
    ensures r.None? <==> forall i :: 0 <= i < |candidates| ==> candidates[i] !in matchLabels
    ensures r.Some? ==> r.value.0 in matchLabels && r.value.1 == matchLabels[r.value.0]
    ensures r.Some? ==> exists i :: (0 <= i < |candidates| && candidates[i] == r.value.0
                                     && forall j :: 0 <= j < i ==> candidates[j] !in matchLabels)
  {
    if |candidates| == 0 then None
    else if candidates[0] in matchLabels then Some((candidates[0], matchLabels[candidates[0]]))
    else
      var r := SelectorLabel(candidates[1..], matchLabels);
      assert r.Some? ==> exists i :: (0 <= i < |candidates| && candidates[i] == r.value.0
                                      && forall j :: 0 <= j < i ==> candidates[j] !in matchLabels) by {
        if r.Some? {
          var i :| 0 <= i < |candidates[1..]| && candidates[1..][i] == r.value.0
            && forall j :: 0 <= j < i ==> candidates[1..][j] !in matchLabels;
          assert candidates[i + 1] == r.value.0;
          forall j | 0 <= j < i + 1 ensures candidates[j] !in matchLabels {
            if j > 0 { assert candidates[j] == candidates[1..][j - 1]; }
          }
        }
      }
      assert r.None? ==> forall i :: 0 <= i < |candidates| ==> candidates[i] !in matchLabels by {
        if r.None? {
          forall i | 0 <= i < |candidates| ensures candidates[i] !in matchLabels {
            if i > 0 { assert candidates[i] == candidates[1..][i - 1]; }
          }
        }
      }
      r
  }

  /** When exactly one candidate key is present, it is the one resolved. */
  lemma SelectorLabelUnique(candidates: seq<string>, matchLabels: map<string, string>, k: string)
    requires k in candidates && k in matchLabels
    requires forall c :: c in candidates && c != k ==> c !in matchLabels
    ensures SelectorLabel(candidates, matchLabels) == Some((k, matchLabels[k]))
  {
  }

  /** Lower-priority candidates appended to the list never change a resolved label. */
  lemma {:induction false} SelectorLabelPriority(front: seq<string>, back: seq<string>, matchLabels: map<string, string>)
    requires SelectorLabel(front, matchLabels).Some?
    ensures SelectorLabel(front + back, matchLabels) == SelectorLabel(front, matchLabels)
  {
    if front[0] !in matchLabels {
      assert (front + back)[1..] == front[1..] + back;
      SelectorLabelPriority(front[1..], back, matchLabels);
    }
  }

  /** Resolves the selector label of `cs`, or reports the candidates none of which is present. */
  function GetSelectorLabel(c: Controller, cs: CloneSet): (r: Result<(string, string), Error>)
    ensures r.Ok? <==> exists k :: k in c.labels && k in cs.spec.selector
    ensures r.Ok? ==> r.value.0 in c.labels && r.value.0 in cs.spec.selector && r.value.1 == cs.spec.selector[r.value.0]
    ensures r.Err? ==> r.error == MissingSelectorLabel(cs.meta.name, c.labels)
    ensures r.Ok? ==> SelectorLabel(c.labels, cs.spec.selector) == Some(r.value)
  {
    match SelectorLabel(c.labels, cs.spec.selector)
    case Some(found) => Ok(found)
    case None => Err(MissingSelectorLabel(cs.meta.name, c.labels))
  }

  // ---------------------------------------------------------------------------
  // Scale to and from zero

  function NodeSelectorOf(cs: CloneSet): NodeSelector {
    cs.spec.template.spec.nodeSelector
  }

  /** `cs` with its pod template's node selector replaced and nothing else changed. */
  function WithNodeSelector(cs: CloneSet, ns: NodeSelector): (r: CloneSet)
    ensures NodeSelectorOf(r) == ns
    ensures r.meta == cs.meta && r.status == cs.status
    ensures r.spec == cs.spec.(template := r.spec.template)
    ensures r.spec.template == cs.spec.template.(spec := cs.spec.template.spec.(nodeSelector := ns))
  {
    cs.(spec := cs.spec.(template := cs.spec.template.(spec := cs.spec.template.spec.(nodeSelector := ns))))
  }

  /** Puts the marker into the target's node selector, keeping every other entry and field. */
  function ScaleToZero(s: Store, cd: Canary): (r: Run<()>)
    requires WellFormed(s)
    ensures WellFormed(r.store)
    ensures r.result.Ok? <==> Readable(s, cd.targetName) && cd.targetName !in s.unwritable
    ensures r.result.Ok? ==>
      var target := s.objects[cd.targetName];
      r.store == s.(objects := s.objects[cd.targetName := WithNodeSelector(target, AddMarker(NodeSelectorOf(target)))])
    ensures r.result.Err? ==> r.store == s
    ensures r.calls == if Readable(s, cd.targetName) then [UpdateCall(cd.targetName)] else []
    ensures !Readable(s, cd.targetName) ==> r.result == Err(ApiFailure(GetVerb, cd.targetName, Get(s, cd.targetName).error))
    ensures Readable(s, cd.targetName) && cd.targetName in s.unwritable ==>
      r.result == Err(ApiFailure(UpdateVerb, cd.targetName, Conflict))
  {
    match Get(s, cd.targetName)
    case Err(e) => Run(Err(ApiFailure(GetVerb, cd.targetName, e)), s, [])
    case Ok(target) =>
      var scaled := WithNodeSelector(target, AddMarker(NodeSelectorOf(target)));
      match Update(s, scaled)
      case Err(e) => Run(Err(ApiFailure(UpdateVerb, cd.targetName, e)), s, [UpdateCall(cd.targetName)])
      case Ok(s') => Run(Ok(()), s', [UpdateCall(cd.targetName)])
  }

  /** Deletes the marker from the target's node selector, keeping every other entry and field. */
  function ScaleFromZero(s: Store, cd: Canary): (r: Run<()>)
    requires WellFormed(s)
    ensures WellFormed(r.store)
    ensures r.result.Ok? <==> Readable(s, cd.targetName) && cd.targetName !in s.unwritable
    ensures r.result.Ok? ==>
      var target := s.objects[cd.targetName];
      r.store == s.(objects := s.objects[cd.targetName := WithNodeSelector(target, RemoveMarker(NodeSelectorOf(target)))])
    ensures r.result.Err? ==> r.store == s
    ensures r.calls == if Readable(s, cd.targetName) then [UpdateCall(cd.targetName)] else []
    ensures !Readable(s, cd.targetName) ==> r.result == Err(ApiFailure(GetVerb, cd.targetName, Get(s, cd.targetName).error))
    ensures Readable(s, cd.targetName) && cd.targetName in s.unwritable ==>
      r.result == Err(ApiFailure(UpdateVerb, cd.targetName, Conflict))
  {
    match Get(s, cd.targetName)
    case Err(e) => Run(Err(ApiFailure(GetVerb, cd.targetName, e)), s, [])
    case Ok(target) =>
      var restored := WithNodeSelector(target, RemoveMarker(NodeSelectorOf(target)));
      match Update(s, restored)
      case Err(e) => Run(Err(ApiFailure(UpdateVerb, cd.targetName, e)), s, [UpdateCall(cd.targetName)])
      case Ok(s') => Run(Ok(()), s', [UpdateCall(cd.targetName)])
  }

  /** Scaling to zero a second time succeeds and writes back the same store. */
  lemma ScaleToZeroIdempotent(s: Store, cd: Canary)
    requires WellFormed(s)
    requires ScaleToZero(s, cd).result.Ok?
    ensures var s1 := ScaleToZero(s, cd).store;
      ScaleToZero(s1, cd).result.Ok? && ScaleToZero(s1, cd).store == s1
  {
    var target := s.objects[cd.targetName];
    AddMarkerIdempotent(NodeSelectorOf(target));
  }

  /** After scaling down and up, the target's node selector is the normalised original. */
  lemma ScaleRoundTrip(s: Store, cd: Canary)
    requires WellFormed(s)
    requires ScaleToZero(s, cd).result.Ok?
    ensures var s1 := ScaleToZero(s, cd).store;
      var s2 := ScaleFromZero(s1, cd);
      var ns := NodeSelectorOf(s.objects[cd.targetName]);
      && s2.result.Ok?
      && NodeSelectorOf(s2.store.objects[cd.targetName]) == Normalise(ns)
      && (s2.store == s <==> ns.Some? && MarkerKey !in ns.value)
  {
    var target := s.objects[cd.targetName];
    var ns := NodeSelectorOf(target);
    RemoveAfterAdd(ns);
    var s2 := ScaleFromZero(ScaleToZero(s, cd).store, cd);
    if s2.store == s {
      assert NodeSelectorOf(s2.store.objects[cd.targetName]) == ns;
    }
    if ns.Some? && MarkerKey !in ns.value {
      assert WithNodeSelector(target, Normalise(ns)) == target;
      assert s2.store.objects == s.objects;
    }
  }

  // ---------------------------------------------------------------------------
  // Drift detection

  /** The pod template drift detection hashes: node selector normalised, all else as stored. */
  function DriftTemplate(cs: CloneSet): (t: PodTemplate)
    ensures t.spec.nodeSelector.Some? && MarkerKey !in t.spec.nodeSelector.value
    ensures SameBesideMarker(t.spec.nodeSelector, NodeSelectorOf(cs))
    ensures t.labels == cs.spec.template.labels && t.annotations == cs.spec.template.annotations
    ensures t.spec.containers == cs.spec.template.spec.containers && t.spec.volumes == cs.spec.template.spec.volumes
  {
    cs.spec.template.(spec := cs.spec.template.spec.(nodeSelector := Normalise(NodeSelectorOf(cs))))
  }

  /** Whether the target's pod template differs from the last recorded one. */
  function HasTargetChanged(c: Controller, s: Store, cd: Canary): (r: Result<bool, Error>)
    ensures !Readable(s, cd.targetName) ==> r == Err(ApiFailure(GetVerb, cd.targetName, Get(s, cd.targetName).error))
    ensures Readable(s, cd.targetName) ==>
      match c.helpers.hasSpecChanged(cd, DriftTemplate(s.objects[cd.targetName]))
      case Some(changed) => r == Ok(changed)
      case None => r == Err(SpecHashFailure)
  {
    match Get(s, cd.targetName)
    case Err(e) => Err(ApiFailure(GetVerb, cd.targetName, e))
    case Ok(target) =>
      match c.helpers.hasSpecChanged(cd, DriftTemplate(target))
      case Some(changed) => Ok(changed)
      case None => Err(SpecHashFailure)
  }

  /** Two targets that differ only in marker or nil-ness of the node selector hash alike. */
  lemma DriftTemplateIgnoresMarker(cs: CloneSet, ns: NodeSelector)
    ensures DriftTemplate(WithNodeSelector(cs, AddMarker(ns))) == DriftTemplate(WithNodeSelector(cs, ns))
    ensures DriftTemplate(WithNodeSelector(cs, RemoveMarker(ns))) == DriftTemplate(WithNodeSelector(cs, ns))
  {
    NormaliseIgnoresMarker(ns);
  }

  /** Scaling the target down or up is never reported as drift. */
  lemma ScalingIsNotDrift(c: Controller, s: Store, cd: Canary)
    requires WellFormed(s)
    ensures HasTargetChanged(c, ScaleToZero(s, cd).store, cd) == HasTargetChanged(c, s, cd)
    ensures HasTargetChanged(c, ScaleFromZero(s, cd).store, cd) == HasTargetChanged(c, s, cd)
  {
    if Readable(s, cd.targetName) {
      var target := s.objects[cd.targetName];
      DriftTemplateIgnoresMarker(target, NodeSelectorOf(target));
      assert WithNodeSelector(target, NodeSelectorOf(target)) == target;
    }
  }

  /** Dependencies changed exactly as the config tracker reports. */
  function HaveDependenciesChanged(c: Controller, cd: Canary): (r: Result<bool, Error>)
    ensures r.Ok? <==> c.tracker.hasConfigChanged(cd).Some?
    ensures r.Ok? ==> r.value == c.tracker.hasConfigChanged(cd).value
    ensures r.Err? ==> r.error == TrackerFailure(HasConfigChangedOp)
  {
    match c.tracker.hasConfigChanged(cd)
    case Some(changed) => Ok(changed)
    case None => Err(TrackerFailure(HasConfigChangedOp))
  }

  // ---------------------------------------------------------------------------
  // Metadata

  /** The selector label key, its value, and the discovered ports (`None`: discovery off, a nil map). */
  datatype Metadata = Metadata(labelKey: string, labelValue: string, ports: Option<map<string, int>>)

  function GetMetadata(c: Controller, s: Store, cd: Canary): (r: Result<Metadata, Error>)
    ensures r.Ok? <==> Readable(s, cd.targetName) && SelectorLabel(c.labels, s.objects[cd.targetName].spec.selector).Some?
    ensures r.Ok? ==>
      var target := s.objects[cd.targetName];
      && (r.value.labelKey, r.value.labelValue) == SelectorLabel(c.labels, target.spec.selector).value
      && (r.value.ports.Some? <==> cd.portDiscovery)
      && (cd.portDiscovery ==> r.value.ports.value == c.helpers.getPorts(cd, target.spec.template.spec.containers))
    ensures Readable(s, cd.targetName) && r.Err? ==> r.error.MissingSelectorLabel?
    ensures !Readable(s, cd.targetName) ==> r == Err(ApiFailure(GetVerb, cd.targetName, Get(s, cd.targetName).error))
  {
    match Get(s, cd.targetName)
    case Err(e) => Err(ApiFailure(GetVerb, cd.targetName, e))
    case Ok(target) =>
      match GetSelectorLabel(c, target)
      case Err(e) => Err(e)
      case Ok((key, value)) =>
        var ports := if cd.portDiscovery then Some(c.helpers.getPorts(cd, target.spec.template.spec.containers)) else None;
        Ok(Metadata(key, value, ports))
  }

  // ---------------------------------------------------------------------------
  // Primary creation

  /** The update strategies the controller accepts: unset or recreate. */
  predicate StrategyAccepted(strategyType: string) {
    strategyType == "" || strategyType == RecreateStrategy
  }

  /** The primary object built from `target` for canary `cd`. */
  function NewPrimary(c: Controller, cd: Canary, target: CloneSet, key: string, value: string,
                      refs: ConfigRefs, annotations: map<string, string>): CloneSet
  {
    var primaryValue := PrimaryLabelValue(value);
    var labels := c.helpers.includeLabelsByPrefix(target.meta.labels, c.includeLabelPrefix);
    CloneSet(
      ObjectMeta(
        PrimaryName(cd.targetName), cd.namespace, 0,
        c.helpers.makePrimaryLabels(labels, primaryValue, key),
        target.meta.annotations,
        Some(cd.name)),
      CloneSetSpec(
        None,
        map[key := primaryValue],
        PodTemplate(
          c.helpers.makePrimaryLabels(target.spec.template.labels, primaryValue, key),
          annotations,
          c.tracker.applyPrimaryConfigs(target.spec.template.spec, refs)),
        target.spec.minReadySeconds,
        target.spec.revisionHistoryLimit,
        target.spec.updateStrategy),
      EmptyStatus)
  }

  /**
    What a primary created from `target` looks like: named and selected by the primary
    convention, owned by the canary, labelled with the target's labels that match the
    prefix list plus the primary label, policy fields and pod spec (through the config
    overlay) taken from the target, no declared replica count.
   */
  ghost predicate IsPrimaryOf(c: Controller, cd: Canary, target: CloneSet, p: CloneSet) {
    && SelectorLabel(c.labels, target.spec.selector).Some?
    && c.tracker.getTargetConfigs(cd).Some?
    && var (key, value) := SelectorLabel(c.labels, target.spec.selector).value;
    && var refs := c.tracker.getTargetConfigs(cd).value;
    && p.meta.name == cd.targetName + "-primary"
    && p.meta.namespace == cd.namespace
    && p.meta.controllerRef == Some(cd.name)
    && p.meta.labels == c.helpers.makePrimaryLabels(
         c.helpers.includeLabelsByPrefix(target.meta.labels, c.includeLabelPrefix), value + "-primary", key)
    && p.meta.annotations == target.meta.annotations
    && p.spec.selector == map[key := value + "-primary"]
    && p.spec.replicas.None?
    && p.spec.minReadySeconds == target.spec.minReadySeconds
    && p.spec.revisionHistoryLimit == target.spec.revisionHistoryLimit
    && p.spec.updateStrategy == target.spec.updateStrategy
    && p.spec.template.spec == c.tracker.applyPrimaryConfigs(target.spec.template.spec, refs)
    && p.spec.template.labels == c.helpers.makePrimaryLabels(target.spec.template.labels, value + "-primary", key)
    && Some(p.spec.template.annotations) == c.helpers.makeAnnotations(target.spec.template.annotations)
  }

  /**
    Creates the primary if, and only if, reading it reports NotFound; a primary that exists
    or cannot be read is left alone. The strategy and selector guards run before any write.
   */
  function CreatePrimary(c: Controller, s: Store, cd: Canary): (r: Run<()>)
    requires WellFormed(s)
    ensures WellFormed(r.store)
    ensures r.result.Err? ==> r.store == s
    ensures r.calls == [] || r.calls == [CreatePrimaryConfigsCall]
      || r.calls == [CreatePrimaryConfigsCall, CreateCall(PrimaryName(cd.targetName))]
    ensures !Readable(s, cd.targetName) ==>
      r == Run(Err(ApiFailure(GetVerb, cd.targetName, Get(s, cd.targetName).error)), s, [])
    ensures (&& Readable(s, cd.targetName)
             && StrategyAccepted(s.objects[cd.targetName].spec.updateStrategy.strategyType)
             && SelectorLabel(c.labels, s.objects[cd.targetName].spec.selector).None?)
      ==> r == Run(Err(MissingSelectorLabel(cd.targetName, c.labels)), s, [])
    ensures Readable(s, cd.targetName) && !StrategyAccepted(s.objects[cd.targetName].spec.updateStrategy.strategyType) ==>
      r == Run(Err(UnsupportedUpdateStrategy(cd.targetName, s.objects[cd.targetName].spec.updateStrategy.strategyType)), s, [])
    ensures (&& Readable(s, cd.targetName)
             && StrategyAccepted(s.objects[cd.targetName].spec.updateStrategy.strategyType)
             && SelectorLabel(c.labels, s.objects[cd.targetName].spec.selector).Some?
             && Get(s, PrimaryName(cd.targetName)) != Err(NotFound))
      ==> r == Run(Ok(()), s, [])
    ensures r.calls != [] ==> Get(s, PrimaryName(cd.targetName)) == Err(NotFound)
    ensures r.store != s ==>
      var p := PrimaryName(cd.targetName);
      && r.result.Ok?
      && Readable(s, cd.targetName)
      && p !in s.objects
      && p in r.store.objects
      && r.store == s.(objects := s.objects[p := r.store.objects[p]])
      && IsPrimaryOf(c, cd, s.objects[cd.targetName], r.store.objects[p])
  {
    var t := cd.targetName;
    var p := PrimaryName(t);
    match Get(s, t)
    case Err(e) => Run(Err(ApiFailure(GetVerb, t, e)), s, [])
    case Ok(target) =>
      if !StrategyAccepted(target.spec.updateStrategy.strategyType) then
        Run(Err(UnsupportedUpdateStrategy(t, target.spec.updateStrategy.strategyType)), s, [])
      else
        match GetSelectorLabel(c, target)
        case Err(e) => Run(Err(e), s, [])
        case Ok((key, value)) =>
          if Get(s, p) != Err(NotFound) then Run(Ok(()), s, [])
          else
            match c.tracker.getTargetConfigs(cd)
            case None => Run(Err(TrackerFailure(GetTargetConfigsOp)), s, [])
            case Some(refs) =>
              if !c.tracker.createPrimaryConfigs(cd, refs, c.includeLabelPrefix) then
                Run(Err(TrackerFailure(CreatePrimaryConfigsOp)), s, [CreatePrimaryConfigsCall])
              else
                match c.helpers.makeAnnotations(target.spec.template.annotations)
                case None => Run(Err(AnnotationsFailure), s, [CreatePrimaryConfigsCall])
                case Some(annotations) =>
                  var primary := NewPrimary(c, cd, target, key, value, refs, annotations);
                  match Create(s, primary)
                  case Err(e) => Run(Err(ApiFailure(CreateVerb, p, e)), s, [CreatePrimaryConfigsCall, CreateCall(p)])
                  case Ok(s') => Run(Ok(()), s', [CreatePrimaryConfigsCall, CreateCall(p)])
  }

  /**
    When the target passes the guards, the primary is reported NotFound and every
    collaborator succeeds, the primary is created, as `IsPrimaryOf` describes.
   */
  lemma CreatePrimaryWhenAbsent(c: Controller, s: Store, cd: Canary)
    requires WellFormed(s)
    requires Readable(s, cd.targetName)
    requires StrategyAccepted(s.objects[cd.targetName].spec.updateStrategy.strategyType)
    requires SelectorLabel(c.labels, s.objects[cd.targetName].spec.selector).Some?
    requires Get(s, PrimaryName(cd.targetName)) == Err(NotFound) && PrimaryName(cd.targetName) !in s.unwritable
    requires c.tracker.getTargetConfigs(cd).Some?
    requires c.tracker.createPrimaryConfigs(cd, c.tracker.getTargetConfigs(cd).value, c.includeLabelPrefix)
    requires c.helpers.makeAnnotations(s.objects[cd.targetName].spec.template.annotations).Some?
    ensures var r := CreatePrimary(c, s, cd);
      var p := PrimaryName(cd.targetName);
      && r.result.Ok?
      && r.calls == [CreatePrimaryConfigsCall, CreateCall(p)]
      && p in r.store.objects
      && IsPrimaryOf(c, cd, s.objects[cd.targetName], r.store.objects[p])
  {
  }

  /**
    With the guards passing and the primary reported NotFound, each collaborator failure
    is reported by kind, after exactly the writes issued before it, and the store is kept.
   */
  lemma CreatePrimaryCollaboratorFailures(c: Controller, s: Store, cd: Canary)
    requires WellFormed(s)
    requires Readable(s, cd.targetName)
    requires StrategyAccepted(s.objects[cd.targetName].spec.updateStrategy.strategyType)
    requires SelectorLabel(c.labels, s.objects[cd.targetName].spec.selector).Some?
    requires Get(s, PrimaryName(cd.targetName)) == Err(NotFound)
    ensures var r := CreatePrimary(c, s, cd);
      var refs := c.tracker.getTargetConfigs(cd);
      var p := PrimaryName(cd.targetName);
      && (refs.None? ==> r == Run(Err(TrackerFailure(GetTargetConfigsOp)), s, []))
      && (refs.Some? && !c.tracker.createPrimaryConfigs(cd, refs.value, c.includeLabelPrefix) ==>
            r == Run(Err(TrackerFailure(CreatePrimaryConfigsOp)), s, [CreatePrimaryConfigsCall]))
      && (&& refs.Some? && c.tracker.createPrimaryConfigs(cd, refs.value, c.includeLabelPrefix)
          && c.helpers.makeAnnotations(s.objects[cd.targetName].spec.template.annotations).None? ==>
            r == Run(Err(AnnotationsFailure), s, [CreatePrimaryConfigsCall]))
      && (&& refs.Some? && c.tracker.createPrimaryConfigs(cd, refs.value, c.includeLabelPrefix)
          && c.helpers.makeAnnotations(s.objects[cd.targetName].spec.template.annotations).Some?
          && p in s.unwritable ==>
            r == Run(Err(ApiFailure(CreateVerb, p, Unavailable)), s, [CreatePrimaryConfigsCall, CreateCall(p)]))
  {
  }

  /** A created primary carries whatever node selector the target had, marker included. */
  lemma CreatedPrimaryInheritsMarker(c: Controller, s: Store, cd: Canary)
    requires WellFormed(s)
    requires CreatePrimary(c, s, cd).store != s
    requires forall spec: PodSpec, refs: ConfigRefs :: c.tracker.applyPrimaryConfigs(spec, refs).nodeSelector == spec.nodeSelector
    ensures var p := PrimaryName(cd.targetName);
      NodeSelectorOf(CreatePrimary(c, s, cd).store.objects[p]) == NodeSelectorOf(s.objects[cd.targetName])
  {
  }

  // ---------------------------------------------------------------------------
  // Initialisation

  /**
    Ensures the primary exists; in the setup phases then checks the primary (unless the
    analysis is skipped) and scales the target down.
   */
  function Initialize(c: Controller, s: Store, cd: Canary, now: int): (r: Run<()>)
    requires WellFormed(s)
    ensures WellFormed(r.store)
    ensures var created := CreatePrimary(c, s, cd);
      created.result.Err? ==> r == Run(Err(Failed(CreatePrimaryStep, created.result.error)), s, created.calls)
    ensures !InitialPhase(cd.phase) && CreatePrimary(c, s, cd).result.Ok? ==> r == CreatePrimary(c, s, cd)
    ensures UpdateCall(cd.targetName) in r.calls ==>
      var created := CreatePrimary(c, s, cd);
      && InitialPhase(cd.phase)
      && created.result.Ok?
      && (cd.skipAnalysis || IsPrimaryReady(created.store, cd, now).Ok?)
    ensures var created := CreatePrimary(c, s, cd);
      && InitialPhase(cd.phase) && created.result.Ok? && !cd.skipAnalysis
      && IsPrimaryReady(created.store, cd, now).Err?
      ==> r == Run(Err(IsPrimaryReady(created.store, cd, now).error), created.store, created.calls)
    ensures var created := CreatePrimary(c, s, cd);
      var scaled := ScaleToZero(created.store, cd);
      && InitialPhase(cd.phase) && created.result.Ok?
      && (cd.skipAnalysis || IsPrimaryReady(created.store, cd, now).Ok?)
      ==> && r.store == scaled.store
          && r.calls == created.calls + scaled.calls
          && (r.result.Ok? <==> scaled.result.Ok?)
          && (r.result.Err? ==> r.result.error == Failed(ScaleToZeroStep, scaled.result.error))
    ensures r.result.Ok? && InitialPhase(cd.phase) ==>
      var created := CreatePrimary(c, s, cd);
      && Readable(created.store, cd.targetName)
      && r.store == ScaleToZero(created.store, cd).store
      && NodeSelectorOf(r.store.objects[cd.targetName]) == AddMarker(NodeSelectorOf(created.store.objects[cd.targetName]))
  {
    var created := CreatePrimary(c, s, cd);
    if created.result.Err? then
      Run(Err(Failed(CreatePrimaryStep, created.result.error)), created.store, created.calls)
    else if !InitialPhase(cd.phase) then
      created
    else
      var ready := if cd.skipAnalysis then Ok(()) else IsPrimaryReady(created.store, cd, now);
      if ready.Err? then
        Run(Err(ready.error), created.store, created.calls)
      else
        var scaled := ScaleToZero(created.store, cd);
        var result := if scaled.result.Err? then Err(Failed(ScaleToZeroStep, scaled.result.error)) else Ok(());
        Run(result, scaled.store, created.calls + scaled.calls)
  }

  /** A second initialisation once the primary exists issues no create. */
  lemma InitializeCreatesOnce(c: Controller, s: Store, cd: Canary, now: int)
    requires WellFormed(s)
    requires PrimaryName(cd.targetName) in s.objects
    ensures CreateCall(PrimaryName(cd.targetName)) !in Initialize(c, s, cd, now).calls
    ensures UpdateCall(PrimaryName(cd.targetName)) !in Initialize(c, s, cd, now).calls
  {
  }

  /**
    A primary created in this very call has not been observed by its controller yet, so
    unless the analysis is skipped the probe fails and the target is not scaled down.
   */
  lemma FreshPrimaryDefersScaleDown(c: Controller, s: Store, cd: Canary, now: int)
    requires WellFormed(s)
    requires InitialPhase(cd.phase) && !cd.skipAnalysis
    requires CreatePrimary(c, s, cd).store != s
    ensures var r := Initialize(c, s, cd, now);
      && r.result == Err(NotReady(PrimaryName(cd.targetName), GenerationNotObserved))
      && r.store == CreatePrimary(c, s, cd).store
      && UpdateCall(cd.targetName) !in r.calls
  {
  }

  // ---------------------------------------------------------------------------
  // Promotion

  /**
    The primary after promotion: its own metadata, status, replica count and selector;
    policy fields from the target; the target's pod spec through the config overlay with
    the marker deleted; new-revision annotations; primary labels on the template.
   */
  ghost predicate IsPromotionOf(c: Controller, cd: Canary, target: CloneSet, primary: CloneSet, promoted: CloneSet) {
    && SelectorLabel(c.labels, target.spec.selector).Some?
    && c.tracker.getTargetConfigs(cd).Some?
    && var (key, value) := SelectorLabel(c.labels, target.spec.selector).value;
    && var applied := c.tracker.applyPrimaryConfigs(target.spec.template.spec, c.tracker.getTargetConfigs(cd).value);
    && promoted.meta == primary.meta
    && promoted.status == primary.status
    && promoted.spec.replicas == primary.spec.replicas
    && promoted.spec.selector == primary.spec.selector
    && promoted.spec.minReadySeconds == target.spec.minReadySeconds
    && promoted.spec.revisionHistoryLimit == target.spec.revisionHistoryLimit
    && promoted.spec.updateStrategy == target.spec.updateStrategy
    && promoted.spec.template.spec.containers == applied.containers
    && promoted.spec.template.spec.volumes == applied.volumes
    && MarkerKey !in Entries(promoted.spec.template.spec.nodeSelector)
    && SameBesideMarker(promoted.spec.template.spec.nodeSelector, applied.nodeSelector)
    && (promoted.spec.template.spec.nodeSelector.None? <==> applied.nodeSelector.None?)
    && promoted.spec.template.labels == c.helpers.makePrimaryLabels(target.spec.template.labels, value + "-primary", key)
    && Some(promoted.spec.template.annotations) == c.helpers.makeAnnotations(target.spec.template.annotations)
  }

  /** Every step before the primary update succeeds. */
  predicate PromoteReady(c: Controller, s: Store, cd: Canary) {
    && Readable(s, cd.targetName)
    && SelectorLabel(c.labels, s.objects[cd.targetName].spec.selector).Some?
    && Readable(s, PrimaryName(cd.targetName))
    && c.tracker.getTargetConfigs(cd).Some?
    && c.tracker.createPrimaryConfigs(cd, c.tracker.getTargetConfigs(cd).value, c.includeLabelPrefix)
    && c.helpers.makeAnnotations(s.objects[cd.targetName].spec.template.annotations).Some?
  }

  /** `primary` rewritten with the revision of `target`. */
  function PromotedPrimary(c: Controller, target: CloneSet, primary: CloneSet, key: string, value: string,
                           refs: ConfigRefs, annotations: map<string, string>): CloneSet
  {
    var applied := c.tracker.applyPrimaryConfigs(target.spec.template.spec, refs);
    var template := PodTemplate(
      c.helpers.makePrimaryLabels(target.spec.template.labels, PrimaryLabelValue(value), key),
      annotations,
      applied.(nodeSelector := RemoveMarker(applied.nodeSelector)));
    primary.(spec := primary.spec.(
      minReadySeconds := target.spec.minReadySeconds,
      revisionHistoryLimit := target.spec.revisionHistoryLimit,
      updateStrategy := target.spec.updateStrategy,
      template := template))
  }

  /**
    Copies the vetted target revision onto the primary in one update, issued only after
    the primary configs were created; a failure at any step leaves the store as it was.
   */
  function Promote(c: Controller, s: Store, cd: Canary): (r: Run<()>)
    requires WellFormed(s)
    ensures WellFormed(r.store)
    ensures r.store.objects.Keys == s.objects.Keys
    ensures r.result.Err? ==> r.store == s
    ensures r.calls == [] || r.calls == [CreatePrimaryConfigsCall]
      || r.calls == [CreatePrimaryConfigsCall, UpdateCall(PrimaryName(cd.targetName))]
  {
    var t := cd.targetName;
    var p := PrimaryName(t);
    match Get(s, t)
    case Err(e) => Run(Err(ApiFailure(GetVerb, t, e)), s, [])
    case Ok(target) =>
      match GetSelectorLabel(c, target)
      case Err(e) => Run(Err(e), s, [])
      case Ok((key, value)) =>
        match Get(s, p)
        case Err(e) => Run(Err(ApiFailure(GetVerb, p, e)), s, [])
        case Ok(primary) =>
          match c.tracker.getTargetConfigs(cd)
          case None => Run(Err(TrackerFailure(GetTargetConfigsOp)), s, [])
          case Some(refs) =>
            if !c.tracker.createPrimaryConfigs(cd, refs, c.includeLabelPrefix) then
              Run(Err(TrackerFailure(CreatePrimaryConfigsOp)), s, [CreatePrimaryConfigsCall])
            else
              match c.helpers.makeAnnotations(target.spec.template.annotations)
              case None => Run(Err(AnnotationsFailure), s, [CreatePrimaryConfigsCall])
              case Some(annotations) =>
                var promoted := PromotedPrimary(c, target, primary, key, value, refs, annotations);
                match Update(s, promoted)
                case Err(e) => Run(Err(ApiFailure(UpdateVerb, p, e)), s, [CreatePrimaryConfigsCall, UpdateCall(p)])
                case Ok(s') => Run(Ok(()), s', [CreatePrimaryConfigsCall, UpdateCall(p)])
  }

  /** The primary is written exactly when every earlier step succeeded. */
  lemma PromoteWritesOnlyWhenReady(c: Controller, s: Store, cd: Canary)
    requires WellFormed(s)
    ensures UpdateCall(PrimaryName(cd.targetName)) in Promote(c, s, cd).calls <==> PromoteReady(c, s, cd)
    ensures Promote(c, s, cd).result.Ok? <==> PromoteReady(c, s, cd) && PrimaryName(cd.targetName) !in s.unwritable
  {
  }

  /** Each failing step of a promotion is reported by kind, after exactly the writes issued before it. */
  lemma PromoteStepFailures(c: Controller, s: Store, cd: Canary)
    requires WellFormed(s)
    ensures var r := Promote(c, s, cd);
      var t := cd.targetName;
      var p := PrimaryName(t);
      && (!Readable(s, t) ==> r == Run(Err(ApiFailure(GetVerb, t, Get(s, t).error)), s, []))
      && (Readable(s, t) && SelectorLabel(c.labels, s.objects[t].spec.selector).None? ==>
            r == Run(Err(MissingSelectorLabel(t, c.labels)), s, []))
      && (Readable(s, t) && SelectorLabel(c.labels, s.objects[t].spec.selector).Some? && !Readable(s, p) ==>
            r == Run(Err(ApiFailure(GetVerb, p, Get(s, p).error)), s, []))
  {
  }

  /** Once both objects are read and the label resolved, collaborator and write failures are reported by kind. */
  lemma PromoteCollaboratorFailures(c: Controller, s: Store, cd: Canary)
    requires WellFormed(s)
    requires Readable(s, cd.targetName) && Readable(s, PrimaryName(cd.targetName))
    requires SelectorLabel(c.labels, s.objects[cd.targetName].spec.selector).Some?
    ensures var r := Promote(c, s, cd);
      var refs := c.tracker.getTargetConfigs(cd);
      var p := PrimaryName(cd.targetName);
      && (refs.None? ==> r == Run(Err(TrackerFailure(GetTargetConfigsOp)), s, []))
      && (refs.Some? && !c.tracker.createPrimaryConfigs(cd, refs.value, c.includeLabelPrefix) ==>
            r == Run(Err(TrackerFailure(CreatePrimaryConfigsOp)), s, [CreatePrimaryConfigsCall]))
      && (&& refs.Some? && c.tracker.createPrimaryConfigs(cd, refs.value, c.includeLabelPrefix)
          && c.helpers.makeAnnotations(s.objects[cd.targetName].spec.template.annotations).None? ==>
            r == Run(Err(AnnotationsFailure), s, [CreatePrimaryConfigsCall]))
      && (PromoteReady(c, s, cd) && p in s.unwritable ==>
            r == Run(Err(ApiFailure(UpdateVerb, p, Conflict)), s, [CreatePrimaryConfigsCall, UpdateCall(p)]))
  {
  }

  /** A successful promotion rewrites the primary, and only the primary, as `IsPromotionOf` describes. */
  lemma PromoteCopiesRevision(c: Controller, s: Store, cd: Canary)
    requires WellFormed(s)
    requires Promote(c, s, cd).result.Ok?
    ensures var p := PrimaryName(cd.targetName);
      var r := Promote(c, s, cd);
      && Readable(s, cd.targetName) && Readable(s, p)
      && p in r.store.objects
      && r.store == s.(objects := s.objects[p := r.store.objects[p]])
      && IsPromotionOf(c, cd, s.objects[cd.targetName], s.objects[p], r.store.objects[p])
  {
  }

  // ---------------------------------------------------------------------------
  // Finalisation

  /** Scales the target back up; a failure is reported wrapped, never swallowed. */
  function Finalize(s: Store, cd: Canary): (r: Run<()>)
    requires WellFormed(s)
    ensures WellFormed(r.store)
    ensures r.result.Ok? <==> Readable(s, cd.targetName) && cd.targetName !in s.unwritable
    ensures r.store.objects.Keys == s.objects.Keys
    ensures r.result.Err? ==> r.store == s && r.result.error.Failed? && r.result.error.step == ScaleFromZeroStep
    ensures r.store == ScaleFromZero(s, cd).store && r.calls == ScaleFromZero(s, cd).calls
    ensures r.result.Err? ==> r.result.error == Failed(ScaleFromZeroStep, ScaleFromZero(s, cd).result.error)
    ensures r.result.Ok? ==>
      var before := s.objects[cd.targetName];
      var after := r.store.objects[cd.targetName];
      && MarkerKey !in Entries(NodeSelectorOf(after))
      && SameBesideMarker(NodeSelectorOf(after), NodeSelectorOf(before))
      && after == WithNodeSelector(before, NodeSelectorOf(after))
  {
    var scaled := ScaleFromZero(s, cd);
    if scaled.result.Err? then Run(Err(Failed(ScaleFromZeroStep, scaled.result.error)), scaled.store, scaled.calls)
    else scaled
  }
}

=== FILE: cloneset_ready.dfy ===
/**
  Readiness of a CloneSet: a classifier from generation, replica counts and an optional
  status condition to (retryable, failure), and the two probes built on it.
  Times are whole seconds; `now` is passed in rather than read from a clock.
 */
module CloneSetReady {
  import opened Results
  import opened Kruise
  import opened Flagger

  const ReasonProgressDeadlineExceeded: string := "ProgressDeadlineExceeded"
  const ReasonMinimumReplicasUnavailable: string := "MinimumReplicasUnavailable"

  /** A CloneSet status condition: status ("True"/"False"/...), reason and transition time. */
  datatype Condition = Condition(status: string, reason: string, lastTransitionTime: int)

  /** The classifier's verdict: `failure` is `None` when ready. */
  datatype Readiness = Readiness(retryable: bool, failure: Option<NotReadyReason>)

  /** The three-way reading of a verdict. */
  datatype Verdict = Ready | NotReadyRetryable | NotReadyFatal

  function VerdictOf(r: Readiness): Verdict {
    if r.failure.None? then Ready
    else if r.retryable then NotReadyRetryable
    else NotReadyFatal
  }

  /** The status reflects the latest spec. */
  predicate CaughtUp(cs: CloneSet) {
    cs.meta.generation <= cs.status.observedGeneration
  }

  /** Check 1: every declared replica runs the new revision (no declared count: nothing to check). */
  predicate AllUpdated(cs: CloneSet) {
    cs.spec.replicas.None? || cs.status.updatedReplicas >= cs.spec.replicas.value
  }

  /** Check 2: no replica of an old revision remains. */
  predicate NoOldReplicas(cs: CloneSet) {
    cs.status.replicas <= cs.status.updatedReplicas
  }

  /** Check 3: every updated replica is available. */
  predicate UpdatedAvailable(cs: CloneSet) {
    cs.status.availableReplicas >= cs.status.updatedReplicas
  }

  /** The rollout of the current revision has finished. */
  predicate RolloutComplete(cs: CloneSet) {
    AllUpdated(cs) && NoOldReplicas(cs) && UpdatedAvailable(cs)
  }

  /** The condition reports that the progress deadline passed. */
  predicate DeadlinePassed(cond: Option<Condition>) {
    cond.Some? && cond.value.reason == ReasonProgressDeadlineExceeded
  }

  /** The condition reports unavailable replicas for longer than the deadline. */
  predicate StuckUnavailable(cond: Option<Condition>, deadline: int, now: int) {
    && cond.Some?
    && cond.value.status == "False"
    && cond.value.reason == ReasonMinimumReplicasUnavailable
    && cond.value.lastTransitionTime + deadline < now
  }

  /**
    The readiness classifier with the condition lookup supplied as `cond` (the source
    consults one lookup for both the progress and the availability condition).
   */
  function Classify(cs: CloneSet, cond: Option<Condition>, deadline: int, now: int): (r: Readiness)
    ensures !CaughtUp(cs) ==> r == Readiness(true, Some(GenerationNotObserved))
    ensures r.failure.None? <==> CaughtUp(cs) && !DeadlinePassed(cond) && RolloutComplete(cs)
    ensures r.failure.None? ==> r.retryable
    ensures !r.retryable <==> CaughtUp(cs) && (DeadlinePassed(cond) || (!RolloutComplete(cs) && StuckUnavailable(cond, deadline, now)))
  {
    if CaughtUp(cs) then
      var retryable :=
        if cond.Some? && cond.value.status == "False" && cond.value.reason == ReasonMinimumReplicasUnavailable
        then !(cond.value.lastTransitionTime + deadline < now)
        else true;
      if cond.Some? && cond.value.reason == ReasonProgressDeadlineExceeded then
        Readiness(false, Some(DeadlineExceeded))
      else if cs.spec.replicas.Some? && cs.status.updatedReplicas < cs.spec.replicas.value then
        Readiness(retryable, Some(ReplicasNotUpdated(cs.status.updatedReplicas, cs.spec.replicas.value)))
      else if cs.status.replicas > cs.status.updatedReplicas then
        Readiness(retryable, Some(OldReplicasPending(cs.status.replicas - cs.status.updatedReplicas)))
      else if cs.status.availableReplicas < cs.status.updatedReplicas then
        Readiness(retryable, Some(ReplicasNotAvailable(cs.status.availableReplicas, cs.status.updatedReplicas)))
      else
        Readiness(true, None)
    else
      Readiness(true, Some(GenerationNotObserved))
  }

  /** Once the generation has caught up (and no deadline passed), the first failing check names the failure. */
  lemma ChecksInOrder(cs: CloneSet, cond: Option<Condition>, deadline: int, now: int)
    requires CaughtUp(cs) && !DeadlinePassed(cond)
    ensures var r := Classify(cs, cond, deadline, now);
      && (!AllUpdated(cs) <==> r.failure.Some? && r.failure.value.ReplicasNotUpdated?)
      && (AllUpdated(cs) && !NoOldReplicas(cs) <==> r.failure.Some? && r.failure.value.OldReplicasPending?)
      && (AllUpdated(cs) && NoOldReplicas(cs) && !UpdatedAvailable(cs)
          <==> r.failure.Some? && r.failure.value.ReplicasNotAvailable?)
      && (!AllUpdated(cs) ==>
            r.failure == Some(ReplicasNotUpdated(cs.status.updatedReplicas, cs.spec.replicas.value)))
      && (AllUpdated(cs) && !NoOldReplicas(cs) ==>
            r.failure == Some(OldReplicasPending(cs.status.replicas - cs.status.updatedReplicas)))
      && (AllUpdated(cs) && NoOldReplicas(cs) && !UpdatedAvailable(cs) ==>
            r.failure == Some(ReplicasNotAvailable(cs.status.availableReplicas, cs.status.updatedReplicas)))
  {
  }

  /** A passed progress deadline is fatal whatever the replica counts are. */
  lemma DeadlineExceededIsFatal(cs: CloneSet, cond: Option<Condition>, deadline: int, now: int)
    requires CaughtUp(cs) && DeadlinePassed(cond)
    ensures Classify(cs, cond, deadline, now) == Readiness(false, Some(DeadlineExceeded))
  {
  }

  /**
    The grace period: a stuck rollout whose availability condition turned "False" at
    `since` stays retryable up to and including `since + deadline`, and is fatal after.
   */
  lemma GracePeriod(cs: CloneSet, since: int, deadline: int, eps: int)
    requires CaughtUp(cs) && !RolloutComplete(cs) && eps > 0
    ensures var cond := Some(Condition("False", ReasonMinimumReplicasUnavailable, since));
      && VerdictOf(Classify(cs, cond, deadline, since + deadline - eps)) == NotReadyRetryable
      && VerdictOf(Classify(cs, cond, deadline, since + deadline)) == NotReadyRetryable
      && VerdictOf(Classify(cs, cond, deadline, since + deadline + eps)) == NotReadyFatal
  {
  }

  /** The condition lookup of the CloneSet controller is a stub that finds nothing. */
  function GetCloneSetCondition(): Option<Condition> {
    None
  }

  /**
    Readiness as the CloneSet controller computes it. With the stub lookup every verdict
    is retryable and only generation and replica counts decide.
   */
  function IsCloneSetReady(cs: CloneSet, deadline: int, now: int): (r: Readiness)
    ensures r.retryable
    ensures r.failure.None? <==> CaughtUp(cs) && RolloutComplete(cs)
    ensures VerdictOf(r) != NotReadyFatal
  {
    Classify(cs, GetCloneSetCondition(), deadline, now)
  }

  /**
    Primary probe: fails when the primary cannot be read or is not ready; the retryable
    flag is dropped. A declared count of zero does not stop it (see `ZeroReplicaPrimaryNotHalted`).
   */
  function IsPrimaryReady(s: Store, cd: Canary, now: int): (r: Result<(), Error>)
    ensures var p := PrimaryName(cd.targetName);
      r.Ok? <==> Readable(s, p) && CaughtUp(s.objects[p]) && RolloutComplete(s.objects[p])
    ensures var p := PrimaryName(cd.targetName);
      !Readable(s, p) ==> r.Err? && r.error.ApiFailure? && r.error.verb == GetVerb && r.error.name == p
    ensures var p := PrimaryName(cd.targetName);
      Readable(s, p) && r.Err? ==> r.error.NotReady? && r.error.name == p
    ensures var p := PrimaryName(cd.targetName);
      !Readable(s, p) ==> r == Err(ApiFailure(GetVerb, p, Get(s, p).error))
    ensures var p := PrimaryName(cd.targetName);
      Readable(s, p) && r.Err? ==> r.error == NotReady(p, IsCloneSetReady(s.objects[p], cd.progressDeadlineSeconds, now).failure.value)
  {
    var p := PrimaryName(cd.targetName);
    match Get(s, p)
    case Err(e) => Err(ApiFailure(GetVerb, p, e))
    case Ok(primary) =>
      var ready := IsCloneSetReady(primary, cd.progressDeadlineSeconds, now);
      // The halt check compares the replicas pointer with a freshly allocated pointer
      // to zero, which is never the same pointer, so it never fires.
      if ready.failure.Some? then Err(NotReady(p, ready.failure.value))
      else Ok(())
  }

  /** A ready primary declared at zero replicas passes the primary probe. */
  lemma ZeroReplicaPrimaryNotHalted(s: Store, cd: Canary, now: int)
    requires Readable(s, PrimaryName(cd.targetName))
    requires s.objects[PrimaryName(cd.targetName)].spec.replicas == Some(0)
    requires s.objects[PrimaryName(cd.targetName)].status == CloneSetStatus(s.objects[PrimaryName(cd.targetName)].meta.generation, 0, 0, 0)
    ensures IsPrimaryReady(s, cd, now).Ok?
  {
  }

  /** Outcome of the canary probe: Go's `(retryable bool, err error)`. */
  datatype Probe = Probe(retryable: bool, error: Option<Error>)

  /** Canary probe: a read failure is retryable, readiness passes the classifier's flag through. */
  function IsCanaryReady(s: Store, cd: Canary, now: int): (r: Probe)
    ensures !Readable(s, cd.targetName) ==> r.retryable && r.error.Some? && r.error.value.ApiFailure?
    ensures Readable(s, cd.targetName) ==>
      var cs := s.objects[cd.targetName];
      && (r.error.None? <==> CaughtUp(cs) && RolloutComplete(cs))
      && r.retryable == IsCloneSetReady(cs, cd.progressDeadlineSeconds, now).retryable
    ensures r.error.Some? && r.error.value.NotReady? ==> r.error.value.name == cd.targetName
    ensures !Readable(s, cd.targetName) ==>
      r == Probe(true, Some(ApiFailure(GetVerb, cd.targetName, Get(s, cd.targetName).error)))
    ensures Readable(s, cd.targetName) && r.error.Some? ==>
      r.error.value == NotReady(cd.targetName, IsCloneSetReady(s.objects[cd.targetName], cd.progressDeadlineSeconds, now).failure.value)
  {
    match Get(s, cd.targetName)
    case Err(e) => Probe(true, Some(ApiFailure(GetVerb, cd.targetName, e)))
    case Ok(canary) =>
      var ready := IsCloneSetReady(canary, cd.progressDeadlineSeconds, now);
      if ready.failure.Some? then Probe(ready.retryable, Some(NotReady(cd.targetName, ready.failure.value)))
      else Probe(true, None)
  }

  /** With the stub condition lookup the canary probe never asks the caller to stop retrying. */
  lemma CanaryProbeAlwaysRetryable(s: Store, cd: Canary, now: int)
    ensures IsCanaryReady(s, cd, now).retryable
  {
  }
}

=== FILE: factory.dfy ===
/**
  The controller factory: picks the workload controller for a target kind and wires
  each variant with the shared dependencies it uses.
 */
module ControllerFactory {
  import opened Results

  /** An opaque reference to a client, the config tracker or the logger. */
  datatype Handle = Handle(id: nat)

  /** The shared dependencies the factory is constructed with. */
  datatype Factory = Factory(
    kubeClient: Handle,
    flaggerClient: Handle,
    logger: Handle,
    configTracker: Handle,
    labels: seq<string>,
    includeLabelPrefix: seq<string>,
    kruiseClient: Handle)

  datatype Variant = DeploymentVariant | DaemonSetVariant | ServiceVariant | CloneSetVariant

  /**
    A constructed controller: its variant and the dependencies set on it; `None` is a
    field left at its zero value.
   */
  datatype Wired = Wired(
    variant: Variant,
    kubeClient: Option<Handle>,
    flaggerClient: Option<Handle>,
    logger: Option<Handle>,
    configTracker: Option<Handle>,
    labels: Option<seq<string>>,
    includeLabelPrefix: Option<seq<string>>,
    kruiseClient: Option<Handle>)

  /** The kind string each variant is registered under. */
  function KindName(v: Variant): string {
    match v
    case DeploymentVariant => "Deployment"
    case DaemonSetVariant => "DaemonSet"
    case ServiceVariant => "Service"
    case CloneSetVariant => "CloneSet"
  }

  /** The variant built with the dependencies that variant takes. */
  function Wire(f: Factory, v: Variant): Wired {
    match v
    case DeploymentVariant =>
      Wired(v, Some(f.kubeClient), Some(f.flaggerClient), Some(f.logger), Some(f.configTracker),
            Some(f.labels), Some(f.includeLabelPrefix), None)
    case DaemonSetVariant =>
      Wired(v, Some(f.kubeClient), Some(f.flaggerClient), Some(f.logger), Some(f.configTracker),
            Some(f.labels), None, None)
    case ServiceVariant =>
      Wired(v, Some(f.kubeClient), Some(f.flaggerClient), Some(f.logger), None, None, None, None)
    case CloneSetVariant =>
      Wired(v, Some(f.kubeClient), Some(f.flaggerClient), Some(f.logger), Some(f.configTracker),
            Some(f.labels), Some(f.includeLabelPrefix), Some(f.kruiseClient))
  }

  /** The controller for a target kind; an unrecognised kind gets the Deployment controller. */
  function Controller(f: Factory, kind: string): (w: Wired)
    ensures kind == "DaemonSet" ==> w.variant == DaemonSetVariant
    ensures kind == "Deployment" ==> w.variant == DeploymentVariant
    ensures kind == "Service" ==> w.variant == ServiceVariant
    ensures kind == "CloneSet" ==> w.variant == CloneSetVariant
    ensures kind !in {"DaemonSet", "Deployment", "Service", "CloneSet"} ==> w.variant == DeploymentVariant
    ensures w.kubeClient == Some(f.kubeClient) && w.flaggerClient == Some(f.flaggerClient) && w.logger == Some(f.logger)
    ensures w.kruiseClient.Some? <==> w.variant == CloneSetVariant
    ensures w.includeLabelPrefix.Some? <==> w.variant in {DeploymentVariant, CloneSetVariant}
    ensures w.labels.None? <==> w.variant == ServiceVariant
    ensures w.configTracker.None? <==> w.variant == ServiceVariant
    ensures w.kruiseClient.Some? ==> w.kruiseClient.value == f.kruiseClient
    ensures w.labels.Some? ==> w.labels.value == f.labels
    ensures w.includeLabelPrefix.Some? ==> w.includeLabelPrefix.value == f.includeLabelPrefix
    ensures w.configTracker.Some? ==> w.configTracker.value == f.configTracker
  {
    var deployment := Wire(f, DeploymentVariant);
    var daemonSet := Wire(f, DaemonSetVariant);
    var service := Wire(f, ServiceVariant);
    var cloneSet := Wire(f, CloneSetVariant);
    match kind
    case "DaemonSet" => daemonSet
    case "Deployment" => deployment
    case "Service" => service
    case "CloneSet" => cloneSet
    case _ => deployment
  }

  /** Each variant is selected by its own kind name, and only by it (Deployment also by default). */
  lemma KindNameRoundTrip(f: Factory, v: Variant, kind: string)
    ensures Controller(f, KindName(v)).variant == v
    ensures v != DeploymentVariant ==> (Controller(f, kind).variant == v <==> kind == KindName(v))
  {
  }

  /** An unknown kind yields exactly the controller the Deployment kind yields. */
  lemma UnknownKindIsDeployment(f: Factory, kind: string)
    requires kind !in {"DaemonSet", "Deployment", "Service", "CloneSet"}
    ensures Controller(f, kind) == Controller(f, "Deployment")
  {
  }

  /** Controllers of the same variant are wired identically. */
  lemma VariantDeterminesWiring(f: Factory, k1: string, k2: string)
    requires Controller(f, k1).variant == Controller(f, k2).variant
    ensures Controller(f, k1) == Controller(f, k2)
  {
  }
}

=== FILE: flagger.dfy ===
/**
  The canary descriptor as the CloneSet controller sees it, the naming convention that
  pairs a target with its primary, and the structured errors and write traces the
  controller operations produce.
 */
module Flagger {
  import opened Results
  import opened Kruise

  /** Suffix appended to the target name and to the selector label value of the primary. */
  const PrimarySuffix: string := "-primary"

  /** The canary phase in which the rollout is being set up. */
  const PhaseInitializing: string := "Initializing"

  /**
    A canary descriptor. `phase` is the status phase ("" before the first reconcile);
    `skipAnalysis`, `progressDeadlineSeconds` and `portDiscovery` are the values of the
    descriptor's accessors, read as given.
   */
  datatype Canary = Canary(
    name: string,
    namespace: string,
    targetName: string,
    phase: string,
    skipAnalysis: bool,
    progressDeadlineSeconds: int,
    portDiscovery: bool)

  function PrimaryName(targetName: string): (r: string)
    ensures |r| > |targetName| && r[..|targetName|] == targetName
  {
    targetName + PrimarySuffix
  }

  function PrimaryLabelValue(value: string): string {
    value + PrimarySuffix
  }

  /** The setup phases, in which `Initialize` scales the target down. */
  predicate InitialPhase(phase: string) {
    phase == "" || phase == PhaseInitializing
  }

  datatype Verb = GetVerb | UpdateVerb | CreateVerb

  /** Why a CloneSet is not ready, with the counts the source reports. */
  datatype NotReadyReason =
    | GenerationNotObserved
    | DeadlineExceeded
    | ReplicasNotUpdated(updated: int, desired: int)
    | OldReplicasPending(pending: int)
    | ReplicasNotAvailable(available: int, updated: int)

  datatype TrackerOp = GetTargetConfigsOp | CreatePrimaryConfigsOp | HasConfigChangedOp

  /** The sub-operation an error is wrapped with by its caller. */
  datatype Step = CreatePrimaryStep | ScaleToZeroStep | ScaleFromZeroStep

  /** Errors by kind, each with the object it concerns; `Failed` wraps a cause. */
  datatype Error =
    | ApiFailure(verb: Verb, name: string, apiError: ApiError)
    | MissingSelectorLabel(name: string, candidates: seq<string>)
    | UnsupportedUpdateStrategy(name: string, strategyType: string)
    | NotReady(name: string, reason: NotReadyReason)
    | TrackerFailure(op: TrackerOp)
    | AnnotationsFailure
    | SpecHashFailure
    | Failed(step: Step, cause: Error)

  /** A write issued to the cluster: primary config copies, a CloneSet update or create. */
  datatype Call = CreatePrimaryConfigsCall | UpdateCall(name: string) | CreateCall(name: string)

  /** The result of a controller operation, the store after it, and the writes it issued in order. */
  datatype Run<+T> = Run(result: Result<T, Error>, store: Store, calls: seq<Call>)
}

=== FILE: kruise.dfy ===
/**
  The OpenKruise CloneSet object and an abstract API server holding the CloneSets of
  one namespace. Only the fields the canary controller reads or writes are kept.
 */
module Kruise {
  import opened Results

  /** The `Type` of the CloneSet update strategy that recreates pods. */
  const RecreateStrategy: string := "ReCreate"

  datatype UpdateStrategy = UpdateStrategy(
    strategyType: string,
    partition: Option<int>,
    maxUnavailable: Option<int>,
    maxSurge: Option<int>,
    paused: bool)

  datatype ContainerPort = ContainerPort(name: string, port: int)

  datatype Container = Container(name: string, image: string, ports: seq<ContainerPort>)

  /** A pod spec; `nodeSelector` is `None` when the Go map is nil. */
  datatype PodSpec = PodSpec(
    nodeSelector: Option<map<string, string>>,
    containers: seq<Container>,
    volumes: seq<string>)

  datatype PodTemplate = PodTemplate(
    labels: map<string, string>,
    annotations: map<string, string>,
    spec: PodSpec)

  /** Object metadata; `controllerRef` names the canary that owns the object, if any. */
  datatype ObjectMeta = ObjectMeta(
    name: string,
    namespace: string,
    generation: int,
    labels: map<string, string>,
    annotations: map<string, string>,
    controllerRef: Option<string>)

  /** `replicas` is `None` when the declared replica count is a nil pointer. */
  datatype CloneSetSpec = CloneSetSpec(
    replicas: Option<int>,
    selector: map<string, string>,
    template: PodTemplate,
    minReadySeconds: int,
    revisionHistoryLimit: Option<int>,
    updateStrategy: UpdateStrategy)

  datatype CloneSetStatus = CloneSetStatus(
    observedGeneration: int,
    replicas: int,
    updatedReplicas: int,
    availableReplicas: int)

  datatype CloneSet = CloneSet(meta: ObjectMeta, spec: CloneSetSpec, status: CloneSetStatus)

  /** The status a freshly built object carries before the API server fills it in. */
  const EmptyStatus: CloneSetStatus := CloneSetStatus(0, 0, 0, 0)

  /** Failures reported by the API server. */
  datatype ApiError = NotFound | AlreadyExists | Conflict | Unavailable

  /**
    The CloneSets of one namespace by name. Reads of a name in `unreadable` and writes
    of a name in `unwritable` fail with a transient error; a write rejected because the
    object changed since it was read is the same kind of failure.
   */
  datatype Store = Store(objects: map<string, CloneSet>, unreadable: set<string>, unwritable: set<string>)

  /** Every object is stored under its own name, as the API server guarantees. */
  predicate WellFormed(s: Store) {
    forall n :: n in s.objects ==> s.objects[n].meta.name == n
  }

  /** A Get of `name` succeeds. */
  predicate Readable(s: Store, name: string) {
    name !in s.unreadable && name in s.objects
  }

  function Get(s: Store, name: string): (r: Result<CloneSet, ApiError>)
    ensures r.Ok? <==> Readable(s, name)
    ensures r.Ok? ==> r.value == s.objects[name]
    ensures r == Err(NotFound) <==> name !in s.unreadable && name !in s.objects
    ensures WellFormed(s) && r.Ok? ==> r.value.meta.name == name
  {
    if name in s.unreadable then Err(Unavailable)
    else if name in s.objects then Ok(s.objects[name])
    else Err(NotFound)
  }

  /** Replaces an existing object with `obj`, addressed by the name `obj` carries. */
  function Update(s: Store, obj: CloneSet): (r: Result<Store, ApiError>)
    ensures r.Ok? <==> obj.meta.name in s.objects && obj.meta.name !in s.unwritable
    ensures r.Ok? ==> r.value == s.(objects := s.objects[obj.meta.name := obj])
    ensures r.Ok? ==> r.value.objects.Keys == s.objects.Keys
    ensures WellFormed(s) && r.Ok? ==> WellFormed(r.value)
  {
    if obj.meta.name in s.unwritable then Err(Conflict)
    else if obj.meta.name !in s.objects then Err(NotFound)
    else Ok(s.(objects := s.objects[obj.meta.name := obj]))
  }

  /**
    The object as the API server stores it on create: the first generation, with a
    status whose observed generation has not reached it yet.
   */
  function Admitted(obj: CloneSet): (a: CloneSet)
    ensures a.meta.name == obj.meta.name && a.spec == obj.spec
    ensures a.meta.labels == obj.meta.labels && a.meta.annotations == obj.meta.annotations
    ensures a.meta.controllerRef == obj.meta.controllerRef
    ensures a.status.observedGeneration < a.meta.generation
  {
    obj.(meta := obj.meta.(generation := 1), status := EmptyStatus)
  }

  /** Adds `obj` under its name, as admitted; fails if the name is taken. */
  function Create(s: Store, obj: CloneSet): (r: Result<Store, ApiError>)
    ensures r.Ok? <==> obj.meta.name !in s.objects && obj.meta.name !in s.unwritable
    ensures r.Ok? ==> r.value == s.(objects := s.objects[obj.meta.name := Admitted(obj)])
    ensures r.Ok? ==> r.value.objects.Keys == s.objects.Keys + {obj.meta.name}
    ensures WellFormed(s) && r.Ok? ==> WellFormed(r.value)
  {
    if obj.meta.name in s.objects then Err(AlreadyExists)
    else if obj.meta.name in s.unwritable then Err(Unavailable)
    else Ok(s.(objects := s.objects[obj.meta.name := Admitted(obj)]))
  }
}

=== FILE: results.dfy ===
/** Optional values and fallible results shared by every module of the model. */
module Results {

  /** A possibly absent value; `None` also stands for a Go nil map or nil pointer. */
  datatype Option<+T> = None | Some(value: T)

  /** The outcome of an operation that may fail with an error of type `E`. */
  datatype Result<+T, +E> = Ok(value: T) | Err(error: E)
}

=== FILE: scale_marker.dfy ===
/**
  The scale-to-zero marker: a node-selector entry that no node carries, so that a
  CloneSet keeps its declared replica count while none of its pods can be scheduled.
  Node selectors are `Option<map>` because Go distinguishes a nil map from an empty one
  when hashing a pod template.
 */
module ScaleMarker {
  import opened Results

  const MarkerKey: string := "flagger.app/scale-to-zero"
  const MarkerValue: string := "true"

  /** The marker entries the controller adds and strips, one key/value pair. */
  const ScaleDownNodeSelector: map<string, string> := map[MarkerKey := MarkerValue]

  type NodeSelector = Option<map<string, string>>

  /** The entries of a node selector; a nil map has none. */
  function Entries(ns: NodeSelector): map<string, string> {
    match ns
    case None => map[]
    case Some(m) => m
  }

  /** Two selectors agree on every key other than the marker. */
  ghost predicate SameBesideMarker(a: NodeSelector, b: NodeSelector) {
    forall k :: k != MarkerKey ==>
      (k in Entries(a) <==> k in Entries(b)) &&
      (k in Entries(a) ==> Entries(a)[k] == Entries(b)[k])
  }

  /** Copies the selector into a fresh map and writes the marker entries over it. */
  function AddMarker(ns: NodeSelector): (r: NodeSelector)
    ensures r.Some?
    ensures MarkerKey in r.value && r.value[MarkerKey] == MarkerValue
    ensures r.value.Keys == Entries(ns).Keys + {MarkerKey}
    ensures SameBesideMarker(r, ns)
  {
    Some(Entries(ns) + ScaleDownNodeSelector)
  }

  /** Deletes the marker keys; deleting from a nil map leaves it nil. */
  function RemoveMarker(ns: NodeSelector): (r: NodeSelector)
    ensures r.None? <==> ns.None?
    ensures MarkerKey !in Entries(r)
    ensures Entries(r).Keys == Entries(ns).Keys - {MarkerKey}
    ensures SameBesideMarker(r, ns)
  {
    match ns
    case None => None
    case Some(m) => Some(m - ScaleDownNodeSelector.Keys)
  }

  /** The form drift detection hashes: marker deleted, then a nil map made empty. */
  function Normalise(ns: NodeSelector): (r: NodeSelector)
    ensures r.Some?
    ensures MarkerKey !in r.value
    ensures SameBesideMarker(r, ns)
  {
    var stripped := RemoveMarker(ns);
    if stripped.None? then Some(map[]) else stripped
  }

  /** Adding the marker twice leaves the same selector as adding it once. */
  lemma AddMarkerIdempotent(ns: NodeSelector)
    ensures AddMarker(AddMarker(ns)) == AddMarker(ns)
  {
    assert AddMarker(AddMarker(ns)).value == AddMarker(ns).value;
  }

  /** Removing the marker twice leaves the same selector as removing it once. */
  lemma RemoveMarkerIdempotent(ns: NodeSelector)
    ensures RemoveMarker(RemoveMarker(ns)) == RemoveMarker(ns)
  {
    if ns.Some? {
      assert RemoveMarker(RemoveMarker(ns)).value == RemoveMarker(ns).value;
    }
  }

  /** Two selectors normalise to the same map exactly when they agree beside the marker. */
  lemma NormaliseEquivalence(a: NodeSelector, b: NodeSelector)
    ensures Normalise(a) == Normalise(b) <==> SameBesideMarker(a, b)
  {
    if SameBesideMarker(a, b) {
      assert Normalise(a).value.Keys == Normalise(b).value.Keys;
      assert Normalise(a).value == Normalise(b).value;
    }
  }

  /** Drift detection cannot see the marker being added or removed, nor a nil map made empty. */
  lemma NormaliseIgnoresMarker(ns: NodeSelector)
    ensures Normalise(AddMarker(ns)) == Normalise(ns)
    ensures Normalise(RemoveMarker(ns)) == Normalise(ns)
    ensures Normalise(Some(Entries(ns))) == Normalise(ns)
  {
    NormaliseEquivalence(AddMarker(ns), ns);
    NormaliseEquivalence(RemoveMarker(ns), ns);
    NormaliseEquivalence(Some(Entries(ns)), ns);
  }

  /**
    Scaling down then up yields the normalised selector, and restores the original
    exactly when it was a non-nil map without a marker key.
   */
  lemma RemoveAfterAdd(ns: NodeSelector)
    ensures RemoveMarker(AddMarker(ns)) == Normalise(ns)
    ensures RemoveMarker(AddMarker(ns)) == ns <==> ns.Some? && MarkerKey !in ns.value
  {
    var back := RemoveMarker(AddMarker(ns));
    assert Normalise(back).value == back.value;
    NormaliseEquivalence(back, ns);
    if ns.Some? && MarkerKey !in ns.value {
      assert RemoveMarker(AddMarker(ns)).value == ns.value;
    }
  }
}
